=== FILE: README.md ===
# RIFF/WAVE loader: a Dafny model of its parser

The program reads `sample.wav` into memory, checks the RIFF/WAVE outer header, walks the
chunks that follow, decodes a 16-byte PCM `fmt ` chunk into channels, sample rate, byte
rate, block align and bits per sample, maps (channels, bits) to one of the four OpenAL
buffer formats, and hands every `data` chunk to `alBufferData`. All of this is written
inline in `Program.Main`. This project models the parsing part as pure functions over the
file's bytes and proves what they do:

- `Bytes`: bytes, C# `int` with unchecked wrap-around (`Wrap32`), the `Span.Slice` bounds
  test (`SliceFits`), the little-endian readers of `BinaryPrimitives`, and their inverses.
- `Wave`: the error kinds (one per `throw`), the four-format `SampleFormat` type, the
  format locals and their sentinels, and `fmt ` body decoding (`DecodeFmt`) with its
  writer side (`EncodeFmt`).
- `ChunkWalk`: one iteration of the chunk loop exactly as written (`Step`), split into the
  `fmt `, `data` and skip branches; the loop run for a bounded number of iterations
  (`RunAsWritten`); and the total walk (`Walk`). The walk refuses a skipped chunk whose size
  sends the cursor back to its own header or earlier, but not before the start of the file.
  Those are the only steps that leave the cursor inside the file without moving it forward,
  and on some of them (a size of -8, or a jump back to an earlier chunk) the source never
  leaves the loop.
- `Parser`: the outer header (`ParseHeader`), the whole parse (`Parse`), and a strict
  variant (`ParseStrict`) that also requires a format and a payload.
- `Scenarios`: whole files built from chunks, and what the parser makes of them.

A `data` chunk becomes a `Submission`: the format and sample rate as they stand, and a
`PayloadRef` of `(offset, length)`. Its offset is always 44, whatever the cursor. Every
out-of-bounds `Slice` (an `ArgumentOutOfRangeException`) is the error `OutOfRange`.

Where the program differs from what a RIFF/WAVE reader is usually expected to do, the model
follows the program:

- The loop guard is `cur + 4 < length`, not "a full 8-byte header remains". A tail of 5
  to 7 bytes therefore throws (`Scenarios.ShortTail`).
- Chunk sizes are read as signed 32-bit values, not unsigned ones.
- The payload is sliced at the fixed offset 44, never at the cursor. A chunk placed
  before `fmt ` shifts the samples away from the payload (`Scenarios.JunkBeforeFormat`).
- The program raises nothing when `fmt ` or `data` is missing. Those errors appear
  only in `ParseStrict`, which is a strengthening and is labelled as one.

## Model

| member | source | states |
|---|---|---|
| Bytes.SliceFits | Program.cs:63-65 | the bounds test behind every `Slice`: the slice fits exactly when start and count are non-negative and end within the span; a slice that does not fit is `OutOfRange` |
| Bytes.SliceFitsAsUnsigned | Program.cs:63-65 | for `int` arguments that test is the one `Span.Slice` makes, `(uint)start + (uint)count <= (uint)length`, so a negative start or count never fits |
| Bytes.Wrap32 | Program.cs:121 | `cur += size` in an unchecked context: the result is a C# `int` that differs from the exact sum by 0 or ±2^32 |
| Bytes.ReadInt16LE | Program.cs:75 | a 16-bit little-endian read is a signed 16-bit value |
| Bytes.ReadInt32LE | Program.cs:65 | a 32-bit little-endian read (the chunk size) is a signed 32-bit value, so it can be negative |
| Bytes.EncodeInt16LE | Program.cs:75 | every 16-bit value has a 2-byte encoding that reads back as that value |
| Bytes.EncodeInt32LE | Program.cs:65 | every 32-bit value has a 4-byte encoding that reads back as that value |
| Bytes.Int16Bytes | Program.cs:75 | any 2 bytes are the encoding of the value read from them, so the reader is one-to-one |
| Bytes.Int32Bytes | Program.cs:65 | any 4 bytes are the encoding of the value read from them |
| Bytes.ReadInt16Window | Program.cs:82 | a 16-bit read depends only on the two bytes under it |
| Bytes.ReadInt32Window | Program.cs:84 | a 32-bit read depends only on the four bytes under it |
| Wave.AlCodeOf | Program.cs:36 | the unset format is 0, and only it is 0; a set format is one of the four OpenAL codes |
| Wave.FormatsDistinct | Program.cs:93-108 | the four formats have pairwise distinct OpenAL codes and pairwise distinct (channels, bits) pairs |
| Wave.SampleFormatOf | Program.cs:93-108 | the mapping succeeds exactly for channels in {1,2} and bits in {8,16}, and the result carries those channels and bits; otherwise the error names the channel count, or the bit depth for mono or for stereo |
| Wave.SampleFormatRoundTrip | Program.cs:93-108 | every format is what its own (channels, bits) pair maps to |
| Wave.DecodeFmt | Program.cs:75-108 | a body too short for the tag is out of range; a non-PCM tag fails with that tag before anything else is read; a PCM body shorter than 16 bytes is out of range; a complete PCM body whose (channels, bits) pair does not map fails with the mapping's error (channels, mono bits or stereo bits); success exactly when 16 bytes fit, the tag is 1 and the pair maps; the fields are the reads at body offsets 2, 4, 8, 12 and 14, and format agrees with them |
| Wave.EncodeFmt | Program.cs:75-91 | every descriptor that fits the field widths has a 16-byte body that decodes to exactly that descriptor |
| Wave.DecodeFmtWindow | Program.cs:75-91 | the decode sees only the 16 body bytes, wherever they sit in the file |
| ChunkWalk.LoopGuard | Program.cs:61 | the guard `cur + 4 < file.Length` with wrap-around: for a cursor below 2^31 - 4 it holds exactly when more than 4 bytes remain (so as few as 5, not a full 8-byte header); for a cursor of 2^31 - 4 or more `cur + 4` wraps negative and the guard holds |
| ChunkWalk.InitialState | Program.cs:12-36 | the loop (`ChunkWalk.Initial`) starts at byte 12 with the `Wave.Sentinels` fields: channels, rate and bits -1, format code 0, nothing submitted; this state satisfies the walk invariant |
| ChunkWalk.HasId | Program.cs:63-123 | the identifier at the cursor equals the tag, byte by byte; the dispatch tests `fmt `, `data` and `iXML` with it, and everything else is skipped |
| Wave.AsciiString | Program.cs:63 | `Encoding.ASCII.GetString`: one character per byte, the byte's own character below 0x80 and `?` above; `ChunkWalk.TagTest` ties it to the byte comparison |
| ChunkWalk.TagTest | Program.cs:63-123 | for a tag of plain ASCII other than `?`, the byte comparison is the same as decoding the identifier with `Encoding.ASCII` and comparing strings |
| ChunkWalk.IdentifierTests | Program.cs:63-123 | the byte tests for `fmt `, `data`, `JUNK` and `iXML` are exactly the source's string comparisons of the ASCII-decoded identifier |
| ChunkWalk.ChunkSize | Program.cs:65 | the size field read as a signed 32-bit number: it is negative exactly when the top bit of its last byte is set |
| ChunkWalk.HasIdSlice | Program.cs:63-67 | comparing the identifier byte by byte is the same as comparing the 4-byte slice with the tag |
| ChunkWalk.FmtChunk | Program.cs:67-109 | a size other than 16 fails with that size; a decode failure is passed on; on success the cursor is the chunk start + 24, the fields are the decoded ones, replacing earlier ones, and submissions are unchanged; the walk invariant is kept |
| ChunkWalk.DataChunk | Program.cs:111-118 | succeeds exactly when [44, 44 + size) lies in the file; appends one submission of (44, size) with the current format and rate; the cursor moves by 8 + size with wrap-around; fields unchanged; the payload starts at the chunk body exactly when the chunk header is at byte 36 |
| ChunkWalk.SkipChunk | Program.cs:119-134 | fails (out of range) exactly for `iXML` when its body does not fit; otherwise only the cursor changes, by 8 + size with wrap-around |
| ChunkWalk.Step | Program.cs:63-134 | fewer than 8 bytes at the cursor throw; on success the cursor moves by 8 + the signed size with wrap-around, and a negative size survives only on a `JUNK` or unrecognised chunk; the walk invariant is kept |
| ChunkWalk.GuardedStep | Program.cs:119-134 | refuses (`NegativeChunkSize`) exactly the `JUNK` or unrecognised chunks whose size is between -(cursor + 8) and -8, and these are exactly the source steps that succeed with the cursor inside the file and not moved forward; everywhere else it is `Step`; on success the cursor has moved forward, or before the file |
| ChunkWalk.Walk | Program.cs:61-135 | the walk ends with the guard false, keeps the invariant (consistent fields, every payload at offset 44 and inside the file, unset format only with the sentinel rate), and only appends submissions |
| ChunkWalk.WalkStops | Program.cs:61 | the loop is left as soon as `cur + 4 < length` fails |
| ChunkWalk.FmtChunkMoves | Program.cs:67-109 | a well-formed `fmt ` chunk at the cursor leads the walk on past it with the decoded fields |
| ChunkWalk.DataChunkMoves | Program.cs:111-116 | a `data` chunk at the cursor whose size fits at offset 44 leads the walk on past it with one more submission of (44, size), even when its own body runs past the end of the file |
| ChunkWalk.OtherChunkMoves | Program.cs:119-134 | any other chunk of non-negative size (an `iXML` one only when its body fits) leads the walk on past it with nothing else changed, even when a `JUNK` or unrecognised body runs past the end of the file |
| ChunkWalk.HeaderCutShort | Program.cs:61-65 | when the guard holds but fewer than 8 bytes remain at the cursor, the walk throws out of range |
| ChunkWalk.FmtSizeRefused | Program.cs:67-72 | a `fmt ` chunk whose size is not 16 ends the walk with `UnsupportedFmtSize` carrying that size |
| ChunkWalk.FmtBodyRefused | Program.cs:73-108 | a 16-byte `fmt ` chunk whose body does not decode ends the walk with the decoder's error (not PCM, an unmapped channel count or bit depth, or the body cut short) |
| ChunkWalk.DataSliceRefused | Program.cs:111-113 | a `data` chunk whose size does not fit at offset 44, a negative size included, ends the walk out of range |
| ChunkWalk.IxmlSliceRefused | Program.cs:123-125 | an `iXML` chunk whose body does not fit after its header ends the walk out of range |
| ChunkWalk.RunAsWritten | Program.cs:61-135 | the loop as written, bounded by a number of iterations: it exits only with the guard false and is still running only with the guard true |
| ChunkWalk.WalkAgreesWithSource | Program.cs:61-135 | unless the walk refuses a negative size, the loop as written, given enough iterations, ends exactly as the walk does: the same final state or the same exception |
| Parser.ParseHeader | Program.cs:15-29 | success exactly when bytes [0,4) are `RIFF` and [8,12) are `WAVE`; not `RIFF`, not `WAVE` and a file too short for a read each fail with their own error |
| Parser.Parse | Program.cs:15-135 | a header failure is passed on; otherwise the result is the walk from cursor 12 with sentinel fields, and a successful parse ends with the guard false and the invariant true |
| Parser.ParseStrict | Program.cs:111-116 | succeeds exactly when the parse succeeds with a decoded format, at least one submission, and the last submission made with the final format and rate; it fails with `MissingFormatChunk`, `MissingDataChunk` or `DataBeforeFormat` otherwise; the value is the final fields and the last payload, which lies inside the file at offset 44 |
| Parser.StrictAccepts | Program.cs:111-116 | a parse ending with a format and a last submission made with that format and rate is accepted by the strict parse, with those fields and that payload |
| Parser.StepIgnoresPrefix | Program.cs:61-134 | a step from cursor 8 or later gives the same result on two files that agree from byte 8 on |
| Parser.WalkIgnoresPrefix | Program.cs:61-135 | the same for the whole walk |
| Parser.DeclaredSizeIgnored | Program.cs:22 | the declared RIFF size is never used: files that differ only in bytes [4,8) parse the same |
| Scenarios.CanonicalRoundTrip | Program.cs:61-116 | header + `fmt ` + `data` parses to the descriptor it was written from, with one submission whose payload is exactly the samples, and the strict parse returns that descriptor and payload |
| Scenarios.FinalDataChunk | Program.cs:61-116 | a `data` chunk that ends the file ends the walk with one more submission of (44, size) carrying the current format and rate |
| Scenarios.FormatThenDataMoves | Program.cs:67-116 | a `fmt ` chunk then a final `data` chunk, read at the cursor, end the walk with the decoded fields and one more submission carrying that format and rate |
| Scenarios.WalkFormatThenData | Program.cs:67-116 | the same for the two chunks laid out byte by byte |
| Scenarios.DataThenFormatMoves | Program.cs:67-116 | a `data` chunk then a final `fmt ` chunk: the submission carries the format and rate from before, and the fields end as decoded |
| Scenarios.WalkDataThenFormat | Program.cs:67-116 | the same for the two chunks laid out byte by byte |
| Scenarios.JunkBeforeFormat | Program.cs:111-122 | header + `JUNK` + `fmt ` + `data` parses to the encoded descriptor with one submission of (44, length of the samples), and the strict parse accepts it, but the samples start past offset 44 by the full size of the `JUNK` chunk |
| Scenarios.JunkFile | Program.cs:61-122 | the same for any file whose bytes are laid out that way |
| Scenarios.WalkSkipThenFormatThenData | Program.cs:111-122 | from offset 12, a `JUNK` chunk is skipped and the `fmt ` and `data` chunks after it end the walk with the decoded fields and one submission |
| Scenarios.DataBeforeFormatChunk | Program.cs:111-116 | `data` before `fmt ` is submitted with format code 0 and rate -1; the later `fmt ` still sets the fields; the strict parse refuses the file |
| Scenarios.SelfLoopNeverExits | Program.cs:119-134 | a skipped chunk of size -8 is a fixed point of the loop body: the loop as written is still running after any number of iterations, and the walk refuses the chunk |
| Scenarios.TwoCycleNeverExits | Program.cs:61-134 | two states the loop body sends to each other keep the loop as written running after any number of iterations |
| Scenarios.CycleFileNeverExits | Program.cs:61-134 | header + `JUNK` of size 0 + `JUNK` of size -16 (28 bytes): the cursor alternates between 12 and 20 and the loop as written never exits; the parse refuses the second chunk with `NegativeChunkSize(-16)` |
| Scenarios.LoopingFileNeverExits | Program.cs:61-134 | the 20-byte file `RIFF`, 12, `WAVE`, `JUNK`, -8 keeps the loop as written running for ever, and the parse refuses it |
| Scenarios.BackwardsFileExits | Program.cs:61-134 | `RIFF`, 12, `WAVE`, `JUNK`, -12: the loop as written goes back to byte 8, takes `WAVE` as an identifier and the bytes `JUNK` as its size, and exits after two iterations past the end with nothing submitted; the parse refuses the file with `NegativeChunkSize(-12)` |
| Scenarios.ShortTail | Program.cs:61-66 | after the header, a tail of at most 4 bytes ends the loop with nothing read, and a tail of 5 to 7 bytes throws at the size read |

## Left out

- OpenAL device, context, source and buffer setup, playback and teardown (Program.cs:38-59, 139-153): these are foreign calls with no parsing logic. The device-open failure and `GetError` checks happen before the walk and do not depend on the file.
- `alBufferData` (Program.cs:115-116) is modelled only as a `Submission` appended to the state. What OpenAL does with it is not part of this model.
- `File.ReadAllBytes` and every console read and write, including the printed iXML text, are I/O. The file is the `seq<byte>` parameter, and the iXML body is only bounds-checked.
- `Encoding.ASCII.GetString` is modelled as `Wave.AsciiString` only where it decodes a 4-byte identifier. The chunk dispatch compares bytes, and `ChunkWalk.IdentifierTests` proves that the same as the source's string comparison. The header tests for `RIFF` and `WAVE` compare bytes directly; the same argument applies, because neither tag contains `?` or a byte above 0x7F.
- ChunkWalk.Walk: does not follow the source for a `JUNK` or unrecognised chunk whose size sends the cursor back to its own header or earlier while staying at or after byte 0. It fails with `NegativeChunkSize` there. The source re-reads bytes it has already passed. It loops for ever on a size of -8 (`Scenarios.LoopingFileNeverExits`), or through a longer cycle, as header + `JUNK`, 0 + `JUNK`, -16 does (`Scenarios.CycleFileNeverExits`), or it exits or throws later. For `RIFF`, 12, `WAVE`, `JUNK`, -12 it goes back to byte 8, reads a chunk named `WAVE` whose size is the bytes `JUNK` (0x4B4E554A), jumps past the end and leaves the loop normally (`Scenarios.BackwardsFileExits`). `ChunkWalk.WalkAgreesWithSource` proves that on every other file the two end the same way.
- Parser.Parse: inherits that difference from `ChunkWalk.Walk`: for such a file it returns `NegativeChunkSize` where the program loops or goes on reading at the earlier cursor.
- Parser.Parse, ChunkWalk.Walk and the other walk members require the file to be at most `Array.MaxLength` (0x7FFFFFC7) bytes long, which is the largest array .NET can allocate. Under that bound, only `cur += size` and `cur + 4` can overflow, and both are wrapped explicitly.
- Wave.DecodeFmt reports one `OutOfRange` for a PCM body shorter than 16 bytes. It does not say which of the five later reads threw. All of them throw the same exception before any field is used.
- ChunkWalk.RunAsWritten takes an iteration bound, because the loop as written need not terminate. Scenarios.LoopingFileNeverExits holds for every bound.
- The RIFF pad byte after odd-sized chunks is not implemented by the program, so it is not modelled.
- Parser.ParseStrict is a strengthening. The program checks neither that a `fmt ` chunk was seen nor that a `data` chunk was seen after one.
- The final console summary (Program.cs:137) prints the fields of the final state and is not modelled as output.

## Findings

| source | as written | input that shows it | evidently intended | confidence | as-written member | corrected member |
|---|---|---|---|---|---|---|
| Program.cs:119-134 | a `JUNK` or unrecognised chunk adds its signed size to `cur`, so a size of -8 returns the cursor to the chunk's own header and the loop never ends | the 20 bytes `52 49 46 46  0C 00 00 00  57 41 56 45  4A 55 4E 4B  F8 FF FF FF` (`RIFF`, 12, `WAVE`, `JUNK`, -8) | a chunk size that does not move the cursor forward is an error, so the loop always terminates | not executed | Scenarios.LoopingFileNeverExits | ChunkWalk.GuardedStep |

The corrected walk `ChunkWalk.Walk` uses `ChunkWalk.GuardedStep`. It refuses such a chunk
with `NegativeChunkSize`. Every other step moves the cursor forward, or before the
file, where the next read throws. `ChunkWalk.WalkAgreesWithSource` proves that on
every other file, the corrected walk and the loop as written end the same way.

=== FILE: bytes.dfy ===
/** Bytes, fixed-width integers and the little-endian readers of `System.Buffers.Binary`. */
module Bytes {

  type byte = x: int | 0 <= x < 256

  const TwoTo8: int := 0x100
  const TwoTo15: int := 0x8000
  const TwoTo16: int := 0x1_0000
  const TwoTo24: int := 0x100_0000
  const TwoTo31: int := 0x8000_0000
  const TwoTo32: int := 0x1_0000_0000

  /** The largest length of a .NET byte array (`Array.MaxLength`), hence of the file span. */
  const MaxArrayLength: int := 0x7FFF_FFC7

  predicate IsInt16(x: int) {
    -TwoTo15 <= x < TwoTo15
  }

  predicate IsInt32(x: int) {
    -TwoTo31 <= x < TwoTo32 - TwoTo31
  }

  /** A C# `int`. */
  type int32 = x: int | -0x8000_0000 <= x < 0x8000_0000

  /**
   * C# `int` addition in an unchecked context: the exact sum of two `int` values (which lies
   * in [-2^32, 2^32)) reduced to the one `int` congruent to it modulo 2^32.
   */
  function Wrap32(x: int): (r: int32)
    requires -TwoTo32 <= x < TwoTo32
    ensures r - x == 0 || r - x == TwoTo32 || r - x == -TwoTo32
  {
    if x < -TwoTo31 then x + TwoTo32
    else if x < TwoTo31 then x
    else x - TwoTo32
  }

  /**
   * The bounds test of `Span.Slice(start, count)`: both arguments are compared as unsigned
   * numbers, so a negative start or count never fits. A slice that does not fit throws.
   */
  predicate SliceFits(length: int, start: int, count: int) {
    0 <= start && 0 <= count && start + count <= length
  }

  /** The C# cast `(uint)x` of an `int`, widened without loss as the bounds test does. */
  function AsUInt32(x: int): int {
    x % TwoTo32
  }

  /**
   * `SliceFits` is the test `Span.Slice` makes: for `int` arguments and a span shorter than
   * 2^31, the start and count cast to `uint` add up to at most the length.
   */
  lemma SliceFitsAsUnsigned(length: int, start: int, count: int)
    requires IsInt32(start) && IsInt32(count) && 0 <= length < TwoTo31
    ensures SliceFits(length, start, count) <==> AsUInt32(start) + AsUInt32(count) <= length
  {
  }

  /** `BinaryPrimitives.ReadInt16LittleEndian` on the two bytes at `at`. */
  function ReadInt16LE(s: seq<byte>, at: int): (v: int)
    requires SliceFits(|s|, at, 2)
    ensures IsInt16(v)
  {
    var u := s[at] + TwoTo8 * s[at + 1];
    if u < TwoTo15 then u else u - TwoTo16
  }

  /** `BinaryPrimitives.ReadInt32LittleEndian` on the four bytes at `at`. */
  function ReadInt32LE(s: seq<byte>, at: int): (v: int)
    requires SliceFits(|s|, at, 4)
    ensures IsInt32(v)
  {
    var u := s[at] + TwoTo8 * s[at + 1] + TwoTo16 * s[at + 2] + TwoTo24 * s[at + 3];
    if u < TwoTo31 then u else u - TwoTo32
  }

  /** The two's-complement little-endian bytes of a 16-bit value (the writer side of the format). */
  function EncodeInt16LE(v: int): (s: seq<byte>)
    requires IsInt16(v)
    ensures |s| == 2
    ensures ReadInt16LE(s, 0) == v
  {
    var u := if v < 0 then v + TwoTo16 else v;
    [u % TwoTo8, u / TwoTo8]
  }

  /** The two's-complement little-endian bytes of a 32-bit value. */
  function EncodeInt32LE(v: int): (s: seq<byte>)
    requires IsInt32(v)
    ensures |s| == 4
    ensures ReadInt32LE(s, 0) == v
  {
    var u := if v < 0 then v + TwoTo32 else v;
    var q1 := u / TwoTo8;
    var q2 := q1 / TwoTo8;
    assert u == u % TwoTo8 + TwoTo8 * q1;
    assert q1 == q1 % TwoTo8 + TwoTo8 * q2;
    assert q2 == q2 % TwoTo8 + TwoTo8 * (q2 / TwoTo8);
    [u % TwoTo8, q1 % TwoTo8, q2 % TwoTo8, q2 / TwoTo8]
  }

  /** Every two bytes are the encoding of the value read from them: the reader is onto and one-to-one. */
  lemma {:induction false} Int16Bytes(s: seq<byte>, at: int)
    requires SliceFits(|s|, at, 2)
    ensures EncodeInt16LE(ReadInt16LE(s, at)) == s[at..at + 2]
  {
    var e := EncodeInt16LE(ReadInt16LE(s, at));
    assert e[0] == s[at] && e[1] == s[at + 1];
  }

  /** Every four bytes are the encoding of the value read from them. */
  lemma {:induction false} Int32Bytes(s: seq<byte>, at: int)
    requires SliceFits(|s|, at, 4)
    ensures EncodeInt32LE(ReadInt32LE(s, at)) == s[at..at + 4]
  {
    var q2 := s[at + 2] + TwoTo8 * s[at + 3];
    var q1 := s[at + 1] + TwoTo8 * q2;
    var u := s[at] + TwoTo8 * q1;
    DivModByte(s[at], q1);
    DivModByte(s[at + 1], q2);
    DivModByte(s[at + 2], s[at + 3]);
    var e := EncodeInt32LE(ReadInt32LE(s, at));
    assert e[0] == s[at] && e[1] == s[at + 1] && e[2] == s[at + 2] && e[3] == s[at + 3];
  }

  /** Splitting `lo + 256 * hi` back into its low byte and the rest. */
  lemma DivModByte(lo: int, hi: int)
    requires 0 <= lo < TwoTo8
    ensures (lo + TwoTo8 * hi) / TwoTo8 == hi
    ensures (lo + TwoTo8 * hi) % TwoTo8 == lo
  {
  }

  /** A 16-bit read depends only on the window of the buffer it covers. */
  lemma ReadInt16Window(s: seq<byte>, at: int, w: seq<byte>, k: int)
    requires SliceFits(|s|, at, |w|) && s[at..at + |w|] == w
    requires SliceFits(|w|, k, 2)
    ensures ReadInt16LE(s, at + k) == ReadInt16LE(w, k)
  {
    assert s[at + k] == w[k] && s[at + k + 1] == w[k + 1];
  }

  /** A 32-bit read depends only on the window of the buffer it covers. */
  lemma ReadInt32Window(s: seq<byte>, at: int, w: seq<byte>, k: int)
    requires SliceFits(|s|, at, |w|) && s[at..at + |w|] == w
    requires SliceFits(|w|, k, 4)
    ensures ReadInt32LE(s, at + k) == ReadInt32LE(w, k)
  {
    assert s[at + k] == w[k] && s[at + k + 1] == w[k + 1];
    assert s[at + k + 2] == w[k + 2] && s[at + k + 3] == w[k + 3];
  }
}

=== FILE: chunkwalk.dfy ===
/**
 * The chunk loop of the parser: one iteration exactly as the source writes it (`Step`),
 * the same loop run for a bounded number of iterations (`RunAsWritten`), and the total
 * walk the parser uses (`Walk`), which differs only by refusing a skipped chunk whose size
 * sends the cursor back to its own header or earlier, inside the file. On those the source
 * re-reads bytes it has already passed, and may never leave the loop.
 */
module ChunkWalk {
  import opened Wrappers
  import opened Bytes
  import opened Wave

  /** Every chunk starts with a 4-byte identifier and a 4-byte little-endian size. */
  const ChunkHeaderSize: int := 8
  /** Where the source always slices the sample data from, whatever the cursor. */
  const FixedDataOffset: int := 44
  /** The cursor after the 12-byte outer header. */
  const FirstChunk: int := 12

  /** A non-owning view into the file: the sample data handed to the playback sink. */
  datatype PayloadRef = PayloadRef(offset: int, length: int)

  /** One `alBufferData` call: the current format, the payload view and the current sample rate. */
  datatype Submission = Submission(format: Option<SampleFormat>, payload: PayloadRef, sampleRate: int)

  /** The loop's state: the cursor `cur`, the format locals, and the buffer submissions made so far. */
  datatype WalkState = WalkState(cursor: int32, fields: FormatFields, submitted: seq<Submission>)

  /** The state on entry to the loop. */
  const Initial: WalkState := WalkState(FirstChunk, Sentinels, [])

  /** The loop guard `cur + 4 < file.Length`, evaluated with 32-bit wrap-around. */
  function LoopGuard(length: int, cursor: int32): (b: bool)
    ensures 0 <= length && cursor < TwoTo31 - 4 ==> (b <==> cursor + 4 < length)
    ensures 0 <= length && cursor >= TwoTo31 - 4 ==> b
  {
    Wrap32(cursor + 4) < length
  }

  /** The chunk at `c` carries the 4-byte identifier `tag` (the source compares the ASCII decoding of the same bytes). */
  predicate HasId(file: seq<byte>, c: int, tag: seq<byte>)
    requires SliceFits(|file|, c, ChunkHeaderSize) && |tag| == 4
  {
    file[c] == tag[0] && file[c + 1] == tag[1] && file[c + 2] == tag[2] && file[c + 3] == tag[3]
  }

  lemma HasIdSlice(file: seq<byte>, c: int, tag: seq<byte>)
    requires SliceFits(|file|, c, ChunkHeaderSize) && |tag| == 4
    ensures HasId(file, c, tag) <==> file[c..c + 4] == tag
  {
    if HasId(file, c, tag) {
      assert forall i :: 0 <= i < 4 ==> file[c..c + 4][i] == tag[i];
    }
  }

  /**
   * Comparing the identifier bytes with a tag that is plain ASCII other than `?` is the same as
   * decoding them with `Encoding.ASCII` and comparing the strings.
   */
  lemma TagTest(file: seq<byte>, c: int, tag: seq<byte>, name: string)
    requires SliceFits(|file|, c, ChunkHeaderSize) && |tag| == 4
    requires forall i :: 0 <= i < 4 ==> tag[i] < 0x80 && tag[i] != 0x3F
    requires AsciiString(tag) == name
    ensures HasId(file, c, tag) <==> AsciiString(file[c..c + 4]) == name
  {
    var w := AsciiString(file[c..c + 4]);
    forall i | 0 <= i < 4
      ensures w[i] == name[i] <==> file[c + i] == tag[i]
    {
      assert w[i] == AsciiChar(file[c + i]) && name[i] == AsciiChar(tag[i]);
    }
    if w == name {
      assert forall i :: 0 <= i < 4 ==> w[i] == name[i];
    }
  }

  /** The four identifier tests of the loop, each as the source writes it: a string comparison. */
  lemma IdentifierTests(file: seq<byte>, c: int)
    requires SliceFits(|file|, c, ChunkHeaderSize)
    ensures HasId(file, c, FmtTag) <==> AsciiString(file[c..c + 4]) == "fmt "
    ensures HasId(file, c, DataTag) <==> AsciiString(file[c..c + 4]) == "data"
    ensures HasId(file, c, JunkTag) <==> AsciiString(file[c..c + 4]) == "JUNK"
    ensures HasId(file, c, IxmlTag) <==> AsciiString(file[c..c + 4]) == "iXML"
  {
    TagTest(file, c, FmtTag, "fmt ");
    TagTest(file, c, DataTag, "data");
    TagTest(file, c, JunkTag, "JUNK");
    TagTest(file, c, IxmlTag, "iXML");
  }

  /** The loop starts at byte 12 with every local at its sentinel, no format, and nothing submitted. */
  lemma InitialState(file: seq<byte>)
    ensures Initial.cursor == FirstChunk && Initial.submitted == []
    ensures Initial.fields.format.None? && AlCodeOf(Initial.fields.format) == 0
    ensures Initial.fields.sampleRate == -1 && Initial.fields.channels == -1 && Initial.fields.bits == -1
    ensures Invariant(file, Initial)
  {
  }

  /** The size field of the chunk at `c`, read as a signed 32-bit number. */
  function ChunkSize(file: seq<byte>, c: int): (size: int32)
    requires SliceFits(|file|, c, ChunkHeaderSize)
    ensures size < 0 <==> file[c + 7] >= 0x80
  {
    ReadInt32LE(file, c + 4)
  }

  /** A submitted payload lies inside the file, and a submission made before any format carries the sentinel rate. */
  predicate SubmissionOk(file: seq<byte>, s: Submission) {
    && s.payload.offset == FixedDataOffset
    && SliceFits(|file|, s.payload.offset, s.payload.length)
    && (s.format.None? ==> s.sampleRate == Sentinels.sampleRate)
  }

  /** What holds of every state the loop reaches. */
  predicate Invariant(file: seq<byte>, st: WalkState) {
    && Consistent(st.fields)
    && forall i :: 0 <= i < |st.submitted| ==> SubmissionOk(file, st.submitted[i])
  }

  /**
   * The `fmt ` branch, for a chunk whose header starts at the cursor: the size must be 16;
   * then the body is decoded and the cursor moves past exactly those 16 bytes. Every field
   * is replaced by the decoded one, whatever an earlier `fmt ` chunk left there.
   */
  function FmtChunk(file: seq<byte>, st: WalkState, size: int): (r: Result<WalkState, Error>)
    requires |file| <= MaxArrayLength && SliceFits(|file|, st.cursor, ChunkHeaderSize)
    ensures size != FmtBodySize ==> r == Failure(UnsupportedFmtSize(size))
    ensures size == FmtBodySize && DecodeFmt(file, st.cursor + ChunkHeaderSize).Failure? ==>
              r == Failure(DecodeFmt(file, st.cursor + ChunkHeaderSize).error)
    ensures r.Success? ==>
              && r.value.cursor == st.cursor + ChunkHeaderSize + FmtBodySize
              && r.value.fields == DecodeFmt(file, st.cursor + ChunkHeaderSize).value
              && r.value.submitted == st.submitted
    ensures Invariant(file, st) && r.Success? ==> Invariant(file, r.value)
  {
    if size != FmtBodySize then Failure(UnsupportedFmtSize(size))
    else
      var fields :- DecodeFmt(file, st.cursor + ChunkHeaderSize);
      Success(st.(cursor := st.cursor + ChunkHeaderSize + FmtBodySize, fields := fields))
  }

  /**
   * The `data` branch: `size` bytes are sliced from the fixed offset 44, not from the chunk
   * body, and handed to the sink with the format and rate as they stand; the cursor then
   * moves past the body. The slice is the body exactly when the chunk header is at byte 36.
   */
  function DataChunk(file: seq<byte>, st: WalkState, size: int32): (r: Result<WalkState, Error>)
    requires |file| <= MaxArrayLength && SliceFits(|file|, st.cursor, ChunkHeaderSize)
    ensures r.Success? <==> SliceFits(|file|, FixedDataOffset, size)
    ensures r.Success? ==>
              && r.value.cursor == Wrap32(st.cursor + ChunkHeaderSize + size)
              && r.value.fields == st.fields
              && |r.value.submitted| == |st.submitted| + 1
              && r.value.submitted[..|st.submitted|] == st.submitted
    ensures r.Success? ==>
              var sub := r.value.submitted[|st.submitted|];
              && sub.payload == PayloadRef(FixedDataOffset, size)
              && sub.format == st.fields.format
              && sub.sampleRate == st.fields.sampleRate
              && (sub.payload.offset == st.cursor + ChunkHeaderSize <==> st.cursor == 36)
    ensures Invariant(file, st) && r.Success? ==> Invariant(file, r.value)
  {
    if !SliceFits(|file|, FixedDataOffset, size) then Failure(OutOfRange)
    else
      var sub := Submission(st.fields.format, PayloadRef(FixedDataOffset, size), st.fields.sampleRate);
      Success(st.(cursor := Wrap32(st.cursor + ChunkHeaderSize + size), submitted := st.submitted + [sub]))
  }

  /**
   * The `JUNK`, `iXML` and unrecognised-identifier branches: the cursor moves past the body
   * and nothing else changes. Only `iXML` slices its body (to print it), so only it can throw.
   */
  function SkipChunk(file: seq<byte>, st: WalkState, size: int32, slicesBody: bool): (r: Result<WalkState, Error>)
    requires |file| <= MaxArrayLength && SliceFits(|file|, st.cursor, ChunkHeaderSize)
    ensures r.Failure? <==> slicesBody && !SliceFits(|file|, st.cursor + ChunkHeaderSize, size)
    ensures r.Failure? ==> r.error == OutOfRange
    ensures r.Success? ==>
              && r.value.cursor == Wrap32(st.cursor + ChunkHeaderSize + size)
              && r.value.fields == st.fields
              && r.value.submitted == st.submitted
  {
    if slicesBody && !SliceFits(|file|, st.cursor + ChunkHeaderSize, size) then Failure(OutOfRange)
    else Success(st.(cursor := Wrap32(st.cursor + ChunkHeaderSize + size)))
  }

  /**
   * One iteration of the loop body, entered with the guard true: the identifier and size are
   * read at the cursor, which throws when fewer than 8 bytes remain (the guard allows 5),
   * then the chunk is dispatched on its identifier. `cur += size` wraps around, and a
   * negative size, which only a skipped chunk survives, moves the cursor backwards.
   */
  function Step(file: seq<byte>, st: WalkState): (r: Result<WalkState, Error>)
    requires |file| <= MaxArrayLength
    requires LoopGuard(|file|, st.cursor)
    ensures !SliceFits(|file|, st.cursor, ChunkHeaderSize) ==> r == Failure(OutOfRange)
    ensures r.Success? ==>
              && SliceFits(|file|, st.cursor, ChunkHeaderSize)
              && r.value.cursor == Wrap32(st.cursor + ChunkHeaderSize + ChunkSize(file, st.cursor))
              && (ChunkSize(file, st.cursor) >= 0 || SkippedUnread(file, st.cursor))
    ensures Invariant(file, st) && r.Success? ==> Invariant(file, r.value)
  {
    var c := st.cursor;
    if !SliceFits(|file|, c, ChunkHeaderSize) then Failure(OutOfRange)
    else
      var size := ChunkSize(file, c);
      if HasId(file, c, FmtTag) then FmtChunk(file, st, size)
      else if HasId(file, c, DataTag) then DataChunk(file, st, size)
      else SkipChunk(file, st, size, HasId(file, c, IxmlTag))
  }

  /** The chunk kinds the source skips without reading: `JUNK` and unrecognised identifiers. */
  predicate SkippedUnread(file: seq<byte>, c: int)
    requires SliceFits(|file|, c, ChunkHeaderSize)
  {
    !HasId(file, c, FmtTag) && !HasId(file, c, DataTag) && !HasId(file, c, IxmlTag)
  }

  /**
   * A skipped chunk whose size sends the cursor back to its own header or before it, but not
   * before the start of the file: `size <= -8` and `cur + 8 + size >= 0`.
   */
  predicate GoesBack(file: seq<byte>, c: int)
    requires SliceFits(|file|, c, ChunkHeaderSize)
  {
    SkippedUnread(file, c) && -(c + ChunkHeaderSize) <= ChunkSize(file, c) <= -ChunkHeaderSize
  }

  /**
   * `Step`, except that a chunk which `GoesBack` is refused. Those are exactly the steps of the
   * source that succeed but leave the cursor inside the file without moving it forward; every
   * other successful step moves it forward, or before the file, where the next read throws.
   */
  function GuardedStep(file: seq<byte>, st: WalkState): (r: Result<WalkState, Error>)
    requires |file| <= MaxArrayLength
    requires LoopGuard(|file|, st.cursor)
    ensures r.Failure? && r.error.NegativeChunkSize? <==>
              SliceFits(|file|, st.cursor, ChunkHeaderSize) && GoesBack(file, st.cursor)
    ensures r.Failure? && r.error.NegativeChunkSize? <==>
              Step(file, st).Success? && 0 <= Step(file, st).value.cursor <= st.cursor
    ensures !(r.Failure? && r.error.NegativeChunkSize?) ==> r == Step(file, st)
    ensures r.Success? ==>
              && SliceFits(|file|, st.cursor, ChunkHeaderSize)
              && (r.value.cursor > st.cursor || r.value.cursor < 0)
  {
    var c := st.cursor;
    if SliceFits(|file|, c, ChunkHeaderSize) && GoesBack(file, c) then
      Failure(NegativeChunkSize(ChunkSize(file, c)))
    else
      Step(file, st)
  }

  /** The termination measure: the bytes between the cursor and the end, or 0 off the file. */
  function Remaining(length: int, cursor: int): nat {
    if 0 <= cursor <= length then length - cursor + 1 else 0
  }

  /** The loop run to its exit with `GuardedStep` as the body. */
  function Walk(file: seq<byte>, st: WalkState): (r: Result<WalkState, Error>)
    requires |file| <= MaxArrayLength
    decreases Remaining(|file|, st.cursor)
    ensures r.Success? ==> !LoopGuard(|file|, r.value.cursor)
    ensures r.Success? && Invariant(file, st) ==> Invariant(file, r.value)
    ensures r.Success? ==> |st.submitted| <= |r.value.submitted| && r.value.submitted[..|st.submitted|] == st.submitted
  {
    if !LoopGuard(|file|, st.cursor) then Success(st)
    else
      var next :- GuardedStep(file, st);
      Walk(file, next)
  }

  /** One iteration of the walk. */
  lemma WalkUnfold(file: seq<byte>, st: WalkState)
    requires |file| <= MaxArrayLength
    ensures !LoopGuard(|file|, st.cursor) ==> Walk(file, st) == Success(st)
    ensures LoopGuard(|file|, st.cursor) && GuardedStep(file, st).Failure? ==>
              Walk(file, st) == Failure(GuardedStep(file, st).error)
    ensures LoopGuard(|file|, st.cursor) && GuardedStep(file, st).Success? ==>
              Walk(file, st) == Walk(file, GuardedStep(file, st).value)
  {
  }

  /** The walk ends where the guard first fails. */
  lemma WalkStops(file: seq<byte>, st: WalkState)
    requires |file| <= MaxArrayLength && !LoopGuard(|file|, st.cursor)
    ensures Walk(file, st) == Success(st)
  {
  }

  /** A well-formed `fmt ` chunk at the cursor: the walk continues past it with the decoded fields. */
  lemma FmtChunkMoves(file: seq<byte>, st: WalkState, d: Descriptor)
    requires |file| <= MaxArrayLength && 0 <= st.cursor
    requires SliceFits(|file|, st.cursor, ChunkHeaderSize + FmtBodySize)
    requires HasId(file, st.cursor, FmtTag) && ChunkSize(file, st.cursor) == FmtBodySize
    requires DecodeFmt(file, st.cursor + ChunkHeaderSize) == Success(d)
    ensures Walk(file, st) == Walk(file, WalkState(st.cursor + ChunkHeaderSize + FmtBodySize, d, st.submitted))
  {
    WalkUnfold(file, st);
  }

  /**
   * A `data` chunk of size `n` at the cursor whose `n` bytes fit at the fixed offset: the walk
   * continues past it with one more submission of those bytes. The chunk's own body need not
   * lie inside the file.
   */
  lemma DataChunkMoves(file: seq<byte>, st: WalkState, n: int)
    requires |file| <= MaxArrayLength && 0 <= st.cursor && 0 <= n
    requires SliceFits(|file|, st.cursor, ChunkHeaderSize) && st.cursor + ChunkHeaderSize + n < TwoTo31
    requires SliceFits(|file|, FixedDataOffset, n)
    requires HasId(file, st.cursor, DataTag) && ChunkSize(file, st.cursor) == n
    ensures Walk(file, st) ==
              Walk(file, WalkState(st.cursor + ChunkHeaderSize + n, st.fields,
                                   st.submitted + [Submission(st.fields.format, PayloadRef(FixedDataOffset, n), st.fields.sampleRate)]))
  {
    var c := st.cursor;
    assert Wrap32(c + 4) == c + 4;
    assert Wrap32(c + ChunkHeaderSize + n) == c + ChunkHeaderSize + n;
    var next := WalkState(c + ChunkHeaderSize + n, st.fields,
                          st.submitted + [Submission(st.fields.format, PayloadRef(FixedDataOffset, n), st.fields.sampleRate)]);
    assert DataChunk(file, st, n) == Success(next);
    assert GuardedStep(file, st) == Success(next);
    WalkUnfold(file, st);
  }

  /**
   * Any other chunk of size `n` at the cursor: the walk continues past it unchanged. Only an
   * `iXML` body has to lie inside the file; a `JUNK` or unrecognised chunk may run past its end.
   */
  lemma OtherChunkMoves(file: seq<byte>, st: WalkState, n: int)
    requires |file| <= MaxArrayLength && 0 <= st.cursor && 0 <= n
    requires SliceFits(|file|, st.cursor, ChunkHeaderSize) && st.cursor + ChunkHeaderSize + n < TwoTo31
    requires !HasId(file, st.cursor, FmtTag) && !HasId(file, st.cursor, DataTag)
    requires HasId(file, st.cursor, IxmlTag) ==> SliceFits(|file|, st.cursor + ChunkHeaderSize, n)
    requires ChunkSize(file, st.cursor) == n
    ensures Walk(file, st) == Walk(file, st.(cursor := st.cursor + ChunkHeaderSize + n))
  {
    var c := st.cursor;
    assert Wrap32(c + 4) == c + 4;
    assert Wrap32(c + ChunkHeaderSize + n) == c + ChunkHeaderSize + n;
    assert GuardedStep(file, st) == Success(st.(cursor := c + ChunkHeaderSize + n));
    WalkUnfold(file, st);
  }

  /** A chunk header cut short by the end of the file, which the guard lets through, throws. */
  lemma HeaderCutShort(file: seq<byte>, st: WalkState)
    requires |file| <= MaxArrayLength && LoopGuard(|file|, st.cursor)
    requires !SliceFits(|file|, st.cursor, ChunkHeaderSize)
    ensures Walk(file, st) == Failure(OutOfRange)
  {
    WalkUnfold(file, st);
  }

  /** A `fmt ` chunk whose size is not 16 ends the walk with that size. */
  lemma FmtSizeRefused(file: seq<byte>, st: WalkState)
    requires |file| <= MaxArrayLength && SliceFits(|file|, st.cursor, ChunkHeaderSize)
    requires HasId(file, st.cursor, FmtTag) && ChunkSize(file, st.cursor) != FmtBodySize
    ensures Walk(file, st) == Failure(UnsupportedFmtSize(ChunkSize(file, st.cursor)))
  {
    assert Wrap32(st.cursor + 4) == st.cursor + 4;
    WalkUnfold(file, st);
  }

  /** A 16-byte `fmt ` chunk whose body does not decode (not PCM, an unmapped pair, cut short) ends the walk with that error. */
  lemma FmtBodyRefused(file: seq<byte>, st: WalkState)
    requires |file| <= MaxArrayLength && SliceFits(|file|, st.cursor, ChunkHeaderSize)
    requires HasId(file, st.cursor, FmtTag) && ChunkSize(file, st.cursor) == FmtBodySize
    requires DecodeFmt(file, st.cursor + ChunkHeaderSize).Failure?
    ensures Walk(file, st) == Failure(DecodeFmt(file, st.cursor + ChunkHeaderSize).error)
  {
    assert Wrap32(st.cursor + 4) == st.cursor + 4;
    WalkUnfold(file, st);
  }

  /** A `data` chunk whose size does not fit at offset 44 (a negative size included) ends the walk out of range. */
  lemma DataSliceRefused(file: seq<byte>, st: WalkState)
    requires |file| <= MaxArrayLength && SliceFits(|file|, st.cursor, ChunkHeaderSize)
    requires HasId(file, st.cursor, DataTag) && !SliceFits(|file|, FixedDataOffset, ChunkSize(file, st.cursor))
    ensures Walk(file, st) == Failure(OutOfRange)
  {
    assert Wrap32(st.cursor + 4) == st.cursor + 4;
    WalkUnfold(file, st);
  }

  /** An `iXML` chunk whose body does not fit in the file ends the walk out of range. */
  lemma IxmlSliceRefused(file: seq<byte>, st: WalkState)
    requires |file| <= MaxArrayLength && SliceFits(|file|, st.cursor, ChunkHeaderSize)
    requires HasId(file, st.cursor, IxmlTag)
    requires !SliceFits(|file|, st.cursor + ChunkHeaderSize, ChunkSize(file, st.cursor))
    ensures Walk(file, st) == Failure(OutOfRange)
  {
    assert Wrap32(st.cursor + 4) == st.cursor + 4;
    WalkUnfold(file, st);
  }

  /** How the source loop stands after a bounded number of iterations. */
  datatype Run = Exited(st: WalkState) | Threw(error: Error) | StillRunning(st: WalkState)

  /** The source loop as written, with `Step` as the body, run for at most `fuel` iterations. */
  function RunAsWritten(file: seq<byte>, st: WalkState, fuel: nat): (r: Run)
    requires |file| <= MaxArrayLength
    ensures r.Exited? ==> !LoopGuard(|file|, r.st.cursor)
    ensures r.StillRunning? ==> LoopGuard(|file|, r.st.cursor)
    decreases fuel
  {
    if !LoopGuard(|file|, st.cursor) then Exited(st)
    else if fuel == 0 then StillRunning(st)
    else
      match Step(file, st)
      case Failure(e) => Threw(e)
      case Success(next) => RunAsWritten(file, next, fuel - 1)
  }

  function ToRun(r: Result<WalkState, Error>): Run {
    match r
    case Success(st) => Exited(st)
    case Failure(e) => Threw(e)
  }

  /** One iteration of the source loop and of the walk, side by side. */
  lemma UnfoldBoth(file: seq<byte>, st: WalkState, fuel: nat)
    requires |file| <= MaxArrayLength && fuel > 0
    ensures !LoopGuard(|file|, st.cursor) ==> Walk(file, st) == Success(st) && RunAsWritten(file, st, fuel) == Exited(st)
    ensures LoopGuard(|file|, st.cursor) && GuardedStep(file, st).Failure? ==>
              Walk(file, st) == Failure(GuardedStep(file, st).error)
    ensures LoopGuard(|file|, st.cursor) && Step(file, st).Failure? ==>
              RunAsWritten(file, st, fuel) == Threw(Step(file, st).error)
    ensures LoopGuard(|file|, st.cursor) && GuardedStep(file, st).Success? ==>
              && Walk(file, st) == Walk(file, GuardedStep(file, st).value)
              && RunAsWritten(file, st, fuel) == RunAsWritten(file, GuardedStep(file, st).value, fuel - 1)
  {
  }

  /**
   * Whenever the walk does not refuse a negative size, the source loop, given enough
   * iterations, ends the same way: with the same final state or the same exception.
   */
  lemma {:induction false} WalkAgreesWithSource(file: seq<byte>, st: WalkState, fuel: nat)
    requires |file| <= MaxArrayLength
    requires fuel > Remaining(|file|, st.cursor)
    requires !(Walk(file, st).Failure? && Walk(file, st).error.NegativeChunkSize?)
    ensures RunAsWritten(file, st, fuel) == ToRun(Walk(file, st))
    decreases Remaining(|file|, st.cursor)
  {
    UnfoldBoth(file, st, fuel);
    if LoopGuard(|file|, st.cursor) && GuardedStep(file, st).Success? {
      var next := GuardedStep(file, st).value;
      WalkAgreesWithSource(file, next, fuel - 1);
    }
  }
}

=== FILE: parser.dfy ===
/**
 * The whole parse: the outer RIFF/WAVE header, then the chunk walk from offset 12.
 * `Parse` keeps what the source keeps (the final format locals and every buffer
 * submission); `ParseStrict` additionally demands a format and a payload, which the
 * source itself never checks.
 */
module Parser {
  import opened Wrappers
  import opened Bytes
  import opened Wave
  import opened ChunkWalk

  /**
   * The outer header: "RIFF", a 32-bit declared size that is read but never checked,
   * and "WAVE". Each read throws when the file is too short for it. Yields the declared size.
   */
  function ParseHeader(file: seq<byte>): (r: Result<int, Error>)
    ensures r.Success? <==> |file| >= FirstChunk && file[0..4] == RiffTag && file[8..12] == WaveTag
    ensures |file| < 4 ==> r == Failure(OutOfRange)
    ensures |file| >= 4 && file[0..4] != RiffTag ==> r == Failure(NotRiff)
    ensures |file| >= 4 && file[0..4] == RiffTag && |file| < FirstChunk ==> r == Failure(OutOfRange)
    ensures |file| >= FirstChunk && file[0..4] == RiffTag && file[8..12] != WaveTag ==> r == Failure(NotWave)
  {
    if !SliceFits(|file|, 0, 4) then Failure(OutOfRange)
    else if file[0..4] != RiffTag then Failure(NotRiff)
    else if !SliceFits(|file|, 4, 4) then Failure(OutOfRange)
    else
      var declared := ReadInt32LE(file, 4);
      if !SliceFits(|file|, 8, 4) then Failure(OutOfRange)
      else if file[8..12] != WaveTag then Failure(NotWave)
      else Success(declared)
  }

  /** The parse as the source performs it, with the walk made total. */
  function Parse(file: seq<byte>): (r: Result<WalkState, Error>)
    requires |file| <= MaxArrayLength
    ensures ParseHeader(file).Failure? ==> r == Failure(ParseHeader(file).error)
    ensures ParseHeader(file).Success? ==> r == Walk(file, Initial)
    ensures r.Success? ==> Invariant(file, r.value) && !LoopGuard(|file|, r.value.cursor)
  {
    var declared :- ParseHeader(file);
    Walk(file, Initial)
  }

  function Last<T>(s: seq<T>): T
    requires |s| > 0
  {
    s[|s| - 1]
  }

  /**
   * The parse with the completeness checks the source omits: a `fmt ` chunk must have been
   * decoded, a `data` chunk found, and the last `data` chunk (the one the buffer ends up
   * holding) must have been handed over with the final format and sample rate. It was not
   * exactly when a `fmt ` chunk that changed them came after it.
   */
  function ParseStrict(file: seq<byte>): (r: Result<(Descriptor, PayloadRef), Error>)
    requires |file| <= MaxArrayLength
    ensures Parse(file).Failure? ==> r == Failure(Parse(file).error)
    ensures r.Success? <==>
              && Parse(file).Success?
              && Parse(file).value.fields.format.Some?
              && |Parse(file).value.submitted| > 0
              && Last(Parse(file).value.submitted).format == Parse(file).value.fields.format
              && Last(Parse(file).value.submitted).sampleRate == Parse(file).value.fields.sampleRate
    ensures Parse(file).Success? && Parse(file).value.fields.format.None? ==> r == Failure(MissingFormatChunk)
    ensures Parse(file).Success? && Parse(file).value.fields.format.Some? && |Parse(file).value.submitted| == 0 ==>
              r == Failure(MissingDataChunk)
    ensures && Parse(file).Success? && Parse(file).value.fields.format.Some? && |Parse(file).value.submitted| > 0
            && (|| Last(Parse(file).value.submitted).format != Parse(file).value.fields.format
                || Last(Parse(file).value.submitted).sampleRate != Parse(file).value.fields.sampleRate) ==>
              r == Failure(DataBeforeFormat)
    ensures r.Success? ==>
              && r.value.0 == Parse(file).value.fields
              && r.value.1 == Last(Parse(file).value.submitted).payload
              && r.value.0.format == Last(Parse(file).value.submitted).format
              && r.value.0.sampleRate == Last(Parse(file).value.submitted).sampleRate
              && r.value.1.offset == FixedDataOffset
              && SliceFits(|file|, r.value.1.offset, r.value.1.length)
  {
    var st :- Parse(file);
    if st.fields.format.None? then Failure(MissingFormatChunk)
    else if |st.submitted| == 0 then Failure(MissingDataChunk)
    else if Last(st.submitted).format != st.fields.format || Last(st.submitted).sampleRate != st.fields.sampleRate then
      Failure(DataBeforeFormat)
    else
      assert SubmissionOk(file, st.submitted[|st.submitted| - 1]);
      Success((st.fields, Last(st.submitted).payload))
  }

  /** A parse that ends with a format and a last payload submitted under it is accepted by the strict parse as that pair. */
  lemma StrictAccepts(file: seq<byte>, st: WalkState)
    requires |file| <= MaxArrayLength && Parse(file) == Success(st)
    requires st.fields.format.Some? && |st.submitted| > 0
    requires Last(st.submitted).format == st.fields.format && Last(st.submitted).sampleRate == st.fields.sampleRate
    ensures ParseStrict(file).Success?
    ensures ParseStrict(file).value == (st.fields, Last(st.submitted).payload)
  {
  }

  /** Two files of the same length that agree from offset `k` on. */
  predicate AgreeFrom(file: seq<byte>, other: seq<byte>, k: int) {
    |file| == |other| && forall i :: 0 <= i < |file| && k <= i ==> file[i] == other[i]
  }

  lemma DecodeFmtAgree(file: seq<byte>, other: seq<byte>, body: int)
    requires 0 <= body && AgreeFrom(file, other, body)
    ensures DecodeFmt(file, body) == DecodeFmt(other, body)
  {
  }

  /** A step from a cursor at or beyond offset 8 (or off the file) never looks at bytes [0,8). */
  lemma StepIgnoresPrefix(file: seq<byte>, other: seq<byte>, st: WalkState)
    requires |file| <= MaxArrayLength && AgreeFrom(file, other, 8)
    requires st.cursor >= 8 || st.cursor < 0
    requires LoopGuard(|file|, st.cursor)
    ensures GuardedStep(file, st) == GuardedStep(other, st)
  {
    var c := st.cursor;
    if SliceFits(|file|, c, ChunkHeaderSize) {
      assert ChunkSize(file, c) == ChunkSize(other, c);
      DecodeFmtAgree(file, other, c + ChunkHeaderSize);
    }
  }

  lemma {:induction false} WalkIgnoresPrefix(file: seq<byte>, other: seq<byte>, st: WalkState)
    requires |file| <= MaxArrayLength && AgreeFrom(file, other, 8)
    requires st.cursor >= 8 || st.cursor < 0
    ensures Walk(file, st) == Walk(other, st)
    decreases Remaining(|file|, st.cursor)
  {
    if LoopGuard(|file|, st.cursor) {
      StepIgnoresPrefix(file, other, st);
      match GuardedStep(file, st)
      case Failure(_) =>
      case Success(next) =>
        WalkIgnoresPrefix(file, other, next);
    }
  }

  /** The declared RIFF size at [4,8) is read but has no influence on the outcome. */
  lemma {:induction false} DeclaredSizeIgnored(file: seq<byte>, other: seq<byte>)
    requires |file| <= MaxArrayLength
    requires |file| == |other|
    requires forall i :: 0 <= i < |file| && (i < 4 || 8 <= i) ==> file[i] == other[i]
    ensures Parse(file) == Parse(other)
  {
    if |file| >= 4 {
      assert file[0..4] == other[0..4];
    }
    if |file| >= FirstChunk {
      assert file[8..12] == other[8..12];
    }
    WalkIgnoresPrefix(file, other, Initial);
  }
}

=== FILE: scenarios.dfy ===
/**
 * Whole files built from their parts, and what the parser makes of them: the canonical
 * header-`fmt `-`data` layout round-trips; an extra chunk before `fmt ` keeps the payload
 * length but not its place; `data` before `fmt ` is submitted with the unset format; a
 * skipped chunk of size -8 keeps the source loop running for ever; a 5-byte tail throws.
 */
module Scenarios {
  import opened Wrappers
  import opened Bytes
  import opened Wave
  import opened ChunkWalk
  import opened Parser

  /** The outer header with the given declared size. */
  function Header(declared: int): (h: seq<byte>)
    requires IsInt32(declared)
    ensures |h| == FirstChunk
  {
    RiffTag + EncodeInt32LE(declared) + WaveTag
  }

  /** A chunk: identifier, little-endian body length, body. */
  function Chunk(id: seq<byte>, body: seq<byte>): (c: seq<byte>)
    requires |id| == 4 && |body| <= MaxArrayLength
    ensures |c| == ChunkHeaderSize + |body|
  {
    id + EncodeInt32LE(|body|) + body
  }

  lemma Middle<T>(a: seq<T>, b: seq<T>, c: seq<T>)
    ensures (a + b + c)[|a|..|a| + |b|] == b
  {
    assert forall i :: 0 <= i < |b| ==> (a + b + c)[|a| + i] == b[i];
  }

  /** The two parts of a suffix that is a concatenation. */
  lemma SplitAt<T>(s: seq<T>, at: int, x: seq<T>, y: seq<T>)
    requires 0 <= at <= |s| && s[at..] == x + y
    ensures at + |x| + |y| == |s|
    ensures s[at..at + |x|] == x && s[at + |x|..at + |x| + |y|] == y
  {
    assert s[at..at + |x|] == s[at..][..|x|];
    assert s[at + |x|..at + |x| + |y|] == s[at..][|x|..];
  }

  /** A chunk laid out at `c` is read back as its identifier, its length and its body. */
  lemma ChunkAt(file: seq<byte>, c: int, id: seq<byte>, body: seq<byte>)
    requires |id| == 4 && |body| <= MaxArrayLength
    requires SliceFits(|file|, c, ChunkHeaderSize + |body|)
    requires file[c..c + ChunkHeaderSize + |body|] == Chunk(id, body)
    ensures SliceFits(|file|, c, ChunkHeaderSize)
    ensures HasId(file, c, id)
    ensures ChunkSize(file, c) == |body|
    ensures file[c + ChunkHeaderSize..c + ChunkHeaderSize + |body|] == body
  {
    var ch := Chunk(id, body);
    var size := EncodeInt32LE(|body|);
    assert file[c..c + 4] == ch[0..4];
    HasIdSlice(file, c, id);
    Middle(id, size, body);
    ReadInt32Window(file, c, ch, 4);
    ReadInt32Window(ch, 4, size, 0);
    assert file[c + ChunkHeaderSize..c + ChunkHeaderSize + |body|] == ch[ChunkHeaderSize..];
  }

  lemma HeaderAt(file: seq<byte>, declared: int)
    requires IsInt32(declared)
    requires |file| >= FirstChunk && file[..FirstChunk] == Header(declared)
    ensures ParseHeader(file) == Success(declared)
  {
    var h := Header(declared);
    var size := EncodeInt32LE(declared);
    assert file[0..4] == h[0..4] == RiffTag;
    assert file[8..12] == h[8..12] == WaveTag;
    Middle(RiffTag, size, WaveTag);
    ReadInt32Window(file, 0, h, 4);
    ReadInt32Window(h, 4, size, 0);
  }

  /** The canonical file: header, a 16-byte `fmt ` chunk, then the `data` chunk. */
  function CanonicalWave(d: Descriptor, samples: seq<byte>): (file: seq<byte>)
    requires Encodable(d) && |samples| <= MaxArrayLength - FixedDataOffset
    ensures |file| == FixedDataOffset + |samples|
  {
    Header(36 + |samples|) + (Chunk(FmtTag, EncodeFmt(d)) + Chunk(DataTag, samples))
  }

  /** Two chunks laid out back to back from `c` to the end of the file. */
  lemma Layout(file: seq<byte>, c: int, id1: seq<byte>, body1: seq<byte>, id2: seq<byte>, body2: seq<byte>)
    requires |id1| == 4 && |body1| <= MaxArrayLength && |id2| == 4 && |body2| <= MaxArrayLength
    requires 0 <= c <= |file| && file[c..] == Chunk(id1, body1) + Chunk(id2, body2)
    ensures var c2 := c + ChunkHeaderSize + |body1|;
            && |file| == c2 + ChunkHeaderSize + |body2|
            && SliceFits(|file|, c, ChunkHeaderSize + |body1|)
            && file[c..c2] == Chunk(id1, body1)
            && HasId(file, c, id1) && ChunkSize(file, c) == |body1|
            && file[c2..c2 + ChunkHeaderSize + |body2|] == Chunk(id2, body2)
            && HasId(file, c2, id2) && ChunkSize(file, c2) == |body2|
  {
    var x, y := Chunk(id1, body1), Chunk(id2, body2);
    SplitAt(file, c, x, y);
    ChunkAt(file, c, id1, body1);
    ChunkAt(file, c + |x|, id2, body2);
  }

  /** A `fmt ` chunk laid out at `c` whose body decodes to `d` is read back as a 16-byte `fmt ` chunk holding `d`. */
  lemma FmtChunkAt(file: seq<byte>, c: int, body: seq<byte>, d: Descriptor)
    requires |body| == FmtBodySize && DecodeFmt(body, 0) == Success(d)
    requires SliceFits(|file|, c, ChunkHeaderSize + FmtBodySize)
    requires file[c..c + ChunkHeaderSize + FmtBodySize] == Chunk(FmtTag, body)
    ensures SliceFits(|file|, c, ChunkHeaderSize)
    ensures HasId(file, c, FmtTag) && ChunkSize(file, c) == FmtBodySize
    ensures DecodeFmt(file, c + ChunkHeaderSize) == Success(d)
  {
    ChunkAt(file, c, FmtTag, body);
    DecodeFmtWindow(file, c + ChunkHeaderSize, body);
  }

  /**
   * The end-to-end round trip: the canonical file parses to the descriptor it was written
   * from, with one submission whose payload is exactly the samples.
   */
  lemma {:induction false} CanonicalRoundTrip(d: Descriptor, samples: seq<byte>)
    requires Encodable(d) && |samples| <= MaxArrayLength - FixedDataOffset
    ensures var file := CanonicalWave(d, samples);
            var payload := PayloadRef(FixedDataOffset, |samples|);
            && Parse(file) == Success(WalkState(|file|, d, [Submission(d.format, payload, d.sampleRate)]))
            && ParseStrict(file) == Success((d, payload))
            && file[payload.offset..payload.offset + payload.length] == samples
  {
    var n := |samples|;
    var h := Header(36 + n);
    var rest := Chunk(FmtTag, EncodeFmt(d)) + Chunk(DataTag, samples);
    var file := h + rest;
    var last := WalkState(|file|, d, [Submission(d.format, PayloadRef(FixedDataOffset, n), d.sampleRate)]);
    assert file == CanonicalWave(d, samples);
    assert Parse(file) == Success(last) by {
      assert file[..FirstChunk] == h;
      HeaderAt(file, 36 + n);
      assert file[FirstChunk..] == rest;
      WalkFormatThenData(file, Initial, EncodeFmt(d), d, samples);
    }
    StrictAccepts(file, last);
    assert file[FixedDataOffset..] == rest[FmtBodySize + 2 * ChunkHeaderSize..];
  }

  /** The walk over a `fmt ` chunk holding `d` and a final `data` chunk of size `n`, as read at the cursor. */
  lemma FormatThenDataMoves(file: seq<byte>, st: WalkState, d: Descriptor, n: int)
    requires |file| <= MaxArrayLength && 0 <= st.cursor && 0 <= n
    requires |file| == st.cursor + 2 * ChunkHeaderSize + FmtBodySize + n
    requires HasId(file, st.cursor, FmtTag) && ChunkSize(file, st.cursor) == FmtBodySize
    requires DecodeFmt(file, st.cursor + ChunkHeaderSize) == Success(d)
    requires HasId(file, st.cursor + ChunkHeaderSize + FmtBodySize, DataTag)
    requires ChunkSize(file, st.cursor + ChunkHeaderSize + FmtBodySize) == n
    requires SliceFits(|file|, FixedDataOffset, n)
    ensures Walk(file, st) ==
              Success(WalkState(|file|, d, st.submitted + [Submission(d.format, PayloadRef(FixedDataOffset, n), d.sampleRate)]))
  {
    var s1 := WalkState(st.cursor + ChunkHeaderSize + FmtBodySize, d, st.submitted);
    assert Walk(file, st) == Walk(file, s1) by {
      FmtChunkMoves(file, st, d);
    }
    FinalDataChunk(file, s1, n);
  }

  /** A `data` chunk of size `n` that ends the file ends the walk with one more submission. */
  lemma FinalDataChunk(file: seq<byte>, st: WalkState, n: int)
    requires |file| <= MaxArrayLength && 0 <= st.cursor && 0 <= n
    requires |file| == st.cursor + ChunkHeaderSize + n
    requires HasId(file, st.cursor, DataTag) && ChunkSize(file, st.cursor) == n
    requires SliceFits(|file|, FixedDataOffset, n)
    ensures Walk(file, st) ==
              Success(WalkState(|file|, st.fields, st.submitted + [Submission(st.fields.format, PayloadRef(FixedDataOffset, n), st.fields.sampleRate)]))
  {
    var next := WalkState(|file|, st.fields, st.submitted + [Submission(st.fields.format, PayloadRef(FixedDataOffset, n), st.fields.sampleRate)]);
    DataChunkMoves(file, st, n);
    WalkStops(file, next);
  }

  /** The walk over a `data` chunk of size `n` and a final `fmt ` chunk holding `d`, as read at the cursor. */
  lemma DataThenFormatMoves(file: seq<byte>, st: WalkState, d: Descriptor, n: int)
    requires |file| <= MaxArrayLength && 0 <= st.cursor && 0 <= n
    requires |file| == st.cursor + 2 * ChunkHeaderSize + FmtBodySize + n
    requires HasId(file, st.cursor, DataTag) && ChunkSize(file, st.cursor) == n
    requires SliceFits(|file|, FixedDataOffset, n)
    requires HasId(file, st.cursor + ChunkHeaderSize + n, FmtTag)
    requires ChunkSize(file, st.cursor + ChunkHeaderSize + n) == FmtBodySize
    requires DecodeFmt(file, st.cursor + 2 * ChunkHeaderSize + n) == Success(d)
    ensures Walk(file, st) ==
              Success(WalkState(|file|, d, st.submitted + [Submission(st.fields.format, PayloadRef(FixedDataOffset, n), st.fields.sampleRate)]))
  {
    var s1 := WalkState(st.cursor + ChunkHeaderSize + n, st.fields,
                        st.submitted + [Submission(st.fields.format, PayloadRef(FixedDataOffset, n), st.fields.sampleRate)]);
    var s2 := WalkState(|file|, d, s1.submitted);
    assert Walk(file, st) == Walk(file, s1) by {
      DataChunkMoves(file, st, n);
    }
    assert Walk(file, s1) == Walk(file, s2) by {
      FmtChunkMoves(file, s1, d);
    }
    WalkStops(file, s2);
  }

  /** From a `fmt ` chunk followed by a final `data` chunk, the walk decodes `d` and submits the samples. */
  lemma {:induction false} WalkFormatThenData(file: seq<byte>, st: WalkState, body: seq<byte>, d: Descriptor, samples: seq<byte>)
    requires |file| <= MaxArrayLength && 0 <= st.cursor
    requires |body| == FmtBodySize && DecodeFmt(body, 0) == Success(d)
    requires |file| == st.cursor + 2 * ChunkHeaderSize + FmtBodySize + |samples|
    requires file[st.cursor..] == Chunk(FmtTag, body) + Chunk(DataTag, samples)
    requires SliceFits(|file|, FixedDataOffset, |samples|)
    ensures Walk(file, st) ==
              Success(WalkState(|file|, d, st.submitted + [Submission(d.format, PayloadRef(FixedDataOffset, |samples|), d.sampleRate)]))
  {
    Layout(file, st.cursor, FmtTag, body, DataTag, samples);
    FmtChunkAt(file, st.cursor, body, d);
    FormatThenDataMoves(file, st, d, |samples|);
  }

  /** From a `data` chunk followed by a final `fmt ` chunk, the walk submits the samples with the fields as they stood, then decodes `d`. */
  lemma {:induction false} WalkDataThenFormat(file: seq<byte>, st: WalkState, body: seq<byte>, d: Descriptor, samples: seq<byte>)
    requires |file| <= MaxArrayLength && 0 <= st.cursor
    requires |body| == FmtBodySize && DecodeFmt(body, 0) == Success(d)
    requires |file| == st.cursor + 2 * ChunkHeaderSize + FmtBodySize + |samples|
    requires file[st.cursor..] == Chunk(DataTag, samples) + Chunk(FmtTag, body)
    requires SliceFits(|file|, FixedDataOffset, |samples|)
    ensures Walk(file, st) ==
              Success(WalkState(|file|, d, st.submitted + [Submission(st.fields.format, PayloadRef(FixedDataOffset, |samples|), st.fields.sampleRate)]))
  {
    Layout(file, st.cursor, DataTag, samples, FmtTag, body);
    FmtChunkAt(file, st.cursor + ChunkHeaderSize + |samples|, body, d);
    DataThenFormatMoves(file, st, d, |samples|);
  }

  /**
   * A `JUNK` chunk before `fmt `: the descriptor and the payload length are still right,
   * but the payload is still taken from offset 44, while the samples start later by
   * exactly the size of the inserted chunk.
   */
  lemma {:induction false} JunkBeforeFormat(d: Descriptor, junk: seq<byte>, samples: seq<byte>)
    requires Encodable(d)
    requires 52 + |junk| + |samples| <= MaxArrayLength
    ensures var file := Header(44 + |junk| + |samples|) + Chunk(JunkTag, junk)
                        + (Chunk(FmtTag, EncodeFmt(d)) + Chunk(DataTag, samples));
            var payload := PayloadRef(FixedDataOffset, |samples|);
            && Parse(file) == Success(WalkState(|file|, d, [Submission(d.format, payload, d.sampleRate)]))
            && ParseStrict(file) == Success((d, payload))
            && file[payload.offset + |Chunk(JunkTag, junk)|..] == samples
  {
    var j, n := |junk|, |samples|;
    var h := Header(44 + j + n);
    var rest := Chunk(JunkTag, junk) + (Chunk(FmtTag, EncodeFmt(d)) + Chunk(DataTag, samples));
    var file := h + Chunk(JunkTag, junk) + (Chunk(FmtTag, EncodeFmt(d)) + Chunk(DataTag, samples));
    assert file == h + rest;
    assert file[..FirstChunk] == h;
    assert file[FirstChunk..] == rest;
    JunkFile(file, 44 + j + n, junk, d, samples);
  }

  /** `JunkBeforeFormat` for any file laid out that way. */
  lemma {:induction false} JunkFile(file: seq<byte>, declared: int, junk: seq<byte>, d: Descriptor, samples: seq<byte>)
    requires Encodable(d) && IsInt32(declared)
    requires |file| == 52 + |junk| + |samples| <= MaxArrayLength
    requires file[..FirstChunk] == Header(declared)
    requires file[FirstChunk..] == Chunk(JunkTag, junk) + (Chunk(FmtTag, EncodeFmt(d)) + Chunk(DataTag, samples))
    ensures var payload := PayloadRef(FixedDataOffset, |samples|);
            && Parse(file) == Success(WalkState(|file|, d, [Submission(d.format, payload, d.sampleRate)]))
            && ParseStrict(file) == Success((d, payload))
            && file[payload.offset + |Chunk(JunkTag, junk)|..] == samples
  {
    var k := Chunk(JunkTag, junk);
    var f := Chunk(FmtTag, EncodeFmt(d));
    var last := WalkState(|file|, d, [Submission(d.format, PayloadRef(FixedDataOffset, |samples|), d.sampleRate)]);
    assert Parse(file) == Success(last) by {
      HeaderAt(file, declared);
      WalkSkipThenFormatThenData(file, junk, EncodeFmt(d), d, samples);
    }
    StrictAccepts(file, last);
    assert file[FixedDataOffset + |k|..] == (k + (f + Chunk(DataTag, samples)))[|k| + |f| + ChunkHeaderSize..];
  }

  /** From a `JUNK` chunk, a `fmt ` chunk and a final `data` chunk at offset 12, the walk skips the first and goes on as without it. */
  lemma {:induction false} WalkSkipThenFormatThenData(file: seq<byte>, junk: seq<byte>, body: seq<byte>, d: Descriptor, samples: seq<byte>)
    requires |file| <= MaxArrayLength && |junk| <= MaxArrayLength
    requires |body| == FmtBodySize && DecodeFmt(body, 0) == Success(d)
    requires |file| == FirstChunk + 3 * ChunkHeaderSize + |junk| + FmtBodySize + |samples|
    requires file[FirstChunk..] == Chunk(JunkTag, junk) + (Chunk(FmtTag, body) + Chunk(DataTag, samples))
    requires SliceFits(|file|, FixedDataOffset, |samples|)
    ensures Walk(file, Initial) ==
              Success(WalkState(|file|, d, [Submission(d.format, PayloadRef(FixedDataOffset, |samples|), d.sampleRate)]))
  {
    var k := Chunk(JunkTag, junk);
    var rest := Chunk(FmtTag, body) + Chunk(DataTag, samples);
    var s1 := Initial.(cursor := FirstChunk + |k|);
    assert Walk(file, Initial) == Walk(file, s1) by {
      SplitAt(file, FirstChunk, k, rest);
      ChunkAt(file, FirstChunk, JunkTag, junk);
      OtherChunkMoves(file, Initial, |junk|);
    }
    assert file[s1.cursor..] == rest by {
      SplitAt(file, FirstChunk, k, rest);
    }
    WalkFormatThenData(file, s1, body, d, samples);
    assert [] + [Submission(d.format, PayloadRef(FixedDataOffset, |samples|), d.sampleRate)] ==
           [Submission(d.format, PayloadRef(FixedDataOffset, |samples|), d.sampleRate)];
  }

  /**
   * `data` before `fmt `: the samples are handed over with the unset format 0 and the
   * sentinel rate -1, the later `fmt ` chunk still sets the fields, and the strict parse
   * refuses the file.
   */
  lemma {:induction false} DataBeforeFormatChunk(d: Descriptor, samples: seq<byte>)
    requires Encodable(d) && |samples| <= MaxArrayLength - FixedDataOffset
    ensures var file := Header(36 + |samples|) + Chunk(DataTag, samples) + Chunk(FmtTag, EncodeFmt(d));
            var sub := Submission(None, PayloadRef(FixedDataOffset, |samples|), -1);
            && Parse(file) == Success(WalkState(|file|, d, [sub]))
            && AlCodeOf(sub.format) == 0
            && ParseStrict(file) == Failure(DataBeforeFormat)
  {
    var n := |samples|;
    var h := Header(36 + n);
    var rest := Chunk(DataTag, samples) + Chunk(FmtTag, EncodeFmt(d));
    var file := h + Chunk(DataTag, samples) + Chunk(FmtTag, EncodeFmt(d));
    var sub := Submission(None, PayloadRef(FixedDataOffset, n), -1);
    assert Parse(file) == Success(WalkState(|file|, d, [sub])) by {
      assert file == h + rest;
      assert file[..FirstChunk] == h;
      HeaderAt(file, 36 + n);
      assert file[FirstChunk..] == rest;
      WalkDataThenFormat(file, Initial, EncodeFmt(d), d, samples);
      assert [] + [sub] == [sub];
    }
  }

  /**
   * In the source, a skipped chunk whose size is -8 sends the cursor back to its own
   * header: the step is a fixed point and the loop never exits, however many
   * iterations it is given. The total walk refuses the chunk instead.
   */
  lemma {:induction false} SelfLoopNeverExits(file: seq<byte>, st: WalkState, fuel: nat)
    requires |file| <= MaxArrayLength
    requires SliceFits(|file|, st.cursor, ChunkHeaderSize)
    requires SkippedUnread(file, st.cursor) && ChunkSize(file, st.cursor) == -ChunkHeaderSize
    ensures LoopGuard(|file|, st.cursor)
    ensures Step(file, st) == Success(st)
    ensures RunAsWritten(file, st, fuel) == StillRunning(st)
    ensures Walk(file, st) == Failure(NegativeChunkSize(-ChunkHeaderSize))
    decreases fuel
  {
    if fuel > 0 {
      SelfLoopNeverExits(file, st, fuel - 1);
    }
  }

  /** The smallest such file: the header and a `JUNK` chunk header declaring size -8. */
  function LoopingFile(): seq<byte> {
    Header(12) + JunkTag + EncodeInt32LE(-ChunkHeaderSize)
  }

  lemma {:induction false} LoopingFileNeverExits(fuel: nat)
    ensures RunAsWritten(LoopingFile(), Initial, fuel) == StillRunning(Initial)
    ensures Parse(LoopingFile()) == Failure(NegativeChunkSize(-ChunkHeaderSize))
  {
    var file := LoopingFile();
    var size := EncodeInt32LE(-ChunkHeaderSize);
    assert file[..FirstChunk] == Header(12);
    HeaderAt(file, 12);
    assert file[12..16] == JunkTag;
    assert file[16..20] == size;
    ReadInt32Window(file, 16, size, 0);
    SelfLoopNeverExits(file, Initial, fuel);
  }

  /**
   * Two states that the loop body sends to each other: the source alternates between them
   * and is still running after any number of iterations.
   */
  lemma {:induction false} TwoCycleNeverExits(file: seq<byte>, a: WalkState, b: WalkState, fuel: nat)
    requires |file| <= MaxArrayLength
    requires LoopGuard(|file|, a.cursor) && LoopGuard(|file|, b.cursor)
    requires Step(file, a) == Success(b) && Step(file, b) == Success(a)
    ensures RunAsWritten(file, a, fuel).StillRunning?
    decreases fuel
  {
    if fuel > 0 {
      TwoCycleNeverExits(file, b, a, fuel - 1);
    }
  }

  /** An empty `JUNK` chunk, then a `JUNK` chunk of size -16 that points back at the first. */
  function CycleFile(): seq<byte> {
    Header(20) + JunkTag + EncodeInt32LE(0) + JunkTag + EncodeInt32LE(-16)
  }

  /**
   * A backward jump of more than one chunk also keeps the source in the loop for ever: the
   * cursor alternates between 12 and 20. The parse refuses the second chunk.
   */
  lemma CycleFileNeverExits(fuel: nat)
    ensures RunAsWritten(CycleFile(), Initial, fuel).StillRunning?
    ensures Parse(CycleFile()) == Failure(NegativeChunkSize(-16))
  {
    var file := CycleFile();
    var zero, back := EncodeInt32LE(0), EncodeInt32LE(-16);
    var second := Initial.(cursor := 20);
    assert file[..FirstChunk] == Header(20);
    HeaderAt(file, 20);
    assert file[12..16] == JunkTag && file[20..24] == JunkTag;
    assert file[16..20] == zero && file[24..28] == back;
    ReadInt32Window(file, 16, zero, 0);
    ReadInt32Window(file, 24, back, 0);
    assert Step(file, Initial) == Success(second);
    assert Step(file, second) == Success(Initial);
    TwoCycleNeverExits(file, Initial, second, fuel);
    assert GuardedStep(file, Initial) == Success(second);
    WalkUnfold(file, Initial);
    WalkUnfold(file, second);
  }

  /** The header and a `JUNK` chunk header declaring size -12, which points back at byte 8. */
  function BackwardsFile(): seq<byte> {
    Header(12) + JunkTag + EncodeInt32LE(-12)
  }

  /**
   * A size that sends the cursor back without looping: the source re-reads `WAVE` as a chunk
   * identifier and the bytes of `JUNK` as its size, jumps past the end and leaves the loop
   * with nothing submitted. The total walk refuses the backward jump instead.
   */
  lemma BackwardsFileExits()
    ensures RunAsWritten(BackwardsFile(), Initial, 2) == Exited(Initial.(cursor := 16 + 0x4B4E554A))
    ensures Parse(BackwardsFile()) == Failure(NegativeChunkSize(-12))
  {
    var file := BackwardsFile();
    var size := EncodeInt32LE(-12);
    assert file[..FirstChunk] == Header(12);
    HeaderAt(file, 12);
    assert file[8..12] == WaveTag;
    assert file[12..16] == JunkTag;
    assert file[16..20] == size;
    ReadInt32Window(file, 16, size, 0);
    ReadInt32Window(file, 12, JunkTag, 0);
    assert Step(file, Initial) == Success(Initial.(cursor := 8));
    assert Step(file, Initial.(cursor := 8)) == Success(Initial.(cursor := 16 + 0x4B4E554A));
  }

  /**
   * The guard `cur + 4 < length` lets the loop run with only 5 to 7 bytes left, so the
   * size read throws, whereas 4 trailing bytes end the loop quietly.
   */
  lemma ShortTail(declared: int, tail: seq<byte>)
    requires IsInt32(declared) && |tail| <= 7
    ensures |tail| <= 4 ==> Parse(Header(declared) + tail) == Success(Initial)
    ensures |tail| >= 5 ==> Parse(Header(declared) + tail) == Failure(OutOfRange)
  {
    var file := Header(declared) + tail;
    assert file[..FirstChunk] == Header(declared);
    HeaderAt(file, declared);
  }
}

=== FILE: wave.dfy ===
/**
 * The WAVE vocabulary: chunk identifiers, the errors the parser raises, the four OpenAL
 * buffer formats, and the decoder of the 16-byte PCM `fmt ` body.
 */
module Wave {
  import opened Wrappers
  import opened Bytes

  /** The ASCII chunk identifiers, as the four bytes they occupy in the file. */
  const RiffTag: seq<byte> := [0x52, 0x49, 0x46, 0x46]  // "RIFF"
  const WaveTag: seq<byte> := [0x57, 0x41, 0x56, 0x45]  // "WAVE"
  const FmtTag: seq<byte> := [0x66, 0x6D, 0x74, 0x20]   // "fmt "
  const DataTag: seq<byte> := [0x64, 0x61, 0x74, 0x61]  // "data"
  const JunkTag: seq<byte> := [0x4A, 0x55, 0x4E, 0x4B]  // "JUNK"
  const IxmlTag: seq<byte> := [0x69, 0x58, 0x4D, 0x4C]  // "iXML"

  /** `Encoding.ASCII` decoding of one byte: a byte above 0x7F becomes `?`. */
  function AsciiChar(b: byte): char {
    if b < 0x80 then b as char else '?'
  }

  /** `Encoding.ASCII.GetString` of a byte span, one character per byte. */
  function AsciiString(s: seq<byte>): (t: string)
    ensures |t| == |s|
    ensures forall i :: 0 <= i < |s| ==> t[i] == AsciiChar(s[i])
  {
    seq(|s|, i requires 0 <= i < |s| => AsciiChar(s[i]))
  }

  /** `WAVE_FORMAT_PCM`, the only accepted audio-format tag. */
  const PcmTag: int := 1
  /** The only accepted `fmt ` body size: the base PCM layout, with no extension. */
  const FmtBodySize: int := 16

  /**
   * Why parsing stopped. Each constructor stands for one `throw` of the source, except the
   * last four, which only the corrected walk and the strict parse raise.
   */
  datatype Error =
    | NotRiff                           // bytes [0,4) are not "RIFF"
    | NotWave                           // bytes [8,12) are not "WAVE"
    | OutOfRange                        // a `Slice` outside the buffer
    | UnsupportedFmtSize(size: int)     // a `fmt ` chunk whose size is not 16
    | UnsupportedAudioFormat(tag: int)  // a `fmt ` chunk that is not PCM
    | UnsupportedMonoBits(bits: int)    // one channel, bits not 8 or 16
    | UnsupportedStereoBits(bits: int)  // two channels, bits not 8 or 16
    | UnsupportedChannels(channels: int)
    | NegativeChunkSize(size: int)      // a skipped chunk whose size sends the cursor back inside the file
    | MissingFormatChunk
    | MissingDataChunk
    | DataBeforeFormat                  // the last `data` chunk came before the `fmt ` chunk in force

  /** The four OpenAL buffer formats a PCM stream can map to. */
  datatype SampleFormat = Mono8 | Mono16 | Stereo8 | Stereo16 {

    function Channels(): int {
      if this == Mono8 || this == Mono16 then 1 else 2
    }

    function Bits(): int {
      if this == Mono8 || this == Stereo8 then 8 else 16
    }

    /** The `AL_FORMAT_*` value handed to `alBufferData`. */
    function AlCode(): int {
      match this
      case Mono8 => 0x1100
      case Mono16 => 0x1101
      case Stereo8 => 0x1102
      case Stereo16 => 0x1103
    }
  }

  /** The `AL_FORMAT_*` value of an optional format; the source's unset `BufferFormat` is 0. */
  function AlCodeOf(f: Option<SampleFormat>): (code: int)
    ensures code == 0 <==> f.None?
    ensures f.Some? ==> 0x1100 <= code <= 0x1103
  {
    match f
    case None => 0
    case Some(g) => g.AlCode()
  }

  /** The distinct formats have distinct OpenAL codes and distinct (channels, bits) pairs. */
  lemma FormatsDistinct(f: SampleFormat, g: SampleFormat)
    ensures f.AlCode() == g.AlCode() <==> f == g
    ensures f.Channels() == g.Channels() && f.Bits() == g.Bits() <==> f == g
  {
  }

  /**
   * The nested switch on (channels, bits): the channel count is examined first, so an
   * unsupported channel count is reported whatever the bit depth.
   */
  function SampleFormatOf(channels: int, bits: int): (r: Result<SampleFormat, Error>)
    ensures r.Success? <==> (channels == 1 || channels == 2) && (bits == 8 || bits == 16)
    ensures r.Success? ==> r.value.Channels() == channels && r.value.Bits() == bits
    ensures channels == 1 && r.Failure? ==> r.error == UnsupportedMonoBits(bits)
    ensures channels == 2 && r.Failure? ==> r.error == UnsupportedStereoBits(bits)
    ensures channels != 1 && channels != 2 ==> r == Failure(UnsupportedChannels(channels))
  {
    if channels == 1 then
      if bits == 8 then Success(Mono8)
      else if bits == 16 then Success(Mono16)
      else Failure(UnsupportedMonoBits(bits))
    else if channels == 2 then
      if bits == 8 then Success(Stereo8)
      else if bits == 16 then Success(Stereo16)
      else Failure(UnsupportedStereoBits(bits))
    else
      Failure(UnsupportedChannels(channels))
  }

  /** Each format is what its own (channels, bits) pair maps back to. */
  lemma SampleFormatRoundTrip(f: SampleFormat)
    ensures SampleFormatOf(f.Channels(), f.Bits()) == Success(f)
  {
  }

  /**
   * The locals `numChannels`, `sampleRate`, `byteRate`, `blockAlign`, `bitsPerSample` and
   * `format` of the source. `format == None` is the unset value 0.
   */
  datatype FormatFields = FormatFields(
    channels: int,
    sampleRate: int,
    byteRate: int,
    blockAlign: int,
    bits: int,
    format: Option<SampleFormat>)

  /** The values the locals hold before any `fmt ` chunk has been decoded. */
  const Sentinels: FormatFields := FormatFields(-1, -1, -1, -1, -1, None)

  /**
   * The fields are either all still sentinels, or were decoded together from one `fmt ` chunk,
   * in which case the format agrees with the channel count and bit depth.
   */
  predicate Consistent(f: FormatFields) {
    if f.format.None? then f == Sentinels
    else f.channels == f.format.value.Channels() && f.bits == f.format.value.Bits()
  }

  /** A completely decoded format: what a `fmt ` chunk yields. */
  type Descriptor = f: FormatFields | f.format.Some? && Consistent(f)
    witness FormatFields(1, 8000, 8000, 1, 8, Some(Mono8))

  /**
   * Decodes the body of a `fmt ` chunk that starts at `body`. The audio-format tag is read
   * and checked before anything else; then channels (offset 2), sample rate (4), byte rate (8),
   * block align (12) and bits per sample (14) are read, and the (channels, bits) pair is mapped.
   * Byte rate and block align are taken as they are, with no cross-check.
   */
  function DecodeFmt(file: seq<byte>, body: int): (r: Result<FormatFields, Error>)
    requires 0 <= body
    ensures !SliceFits(|file|, body, 2) ==> r == Failure(OutOfRange)
    ensures SliceFits(|file|, body, 2) && ReadInt16LE(file, body) != PcmTag ==>
              r == Failure(UnsupportedAudioFormat(ReadInt16LE(file, body)))
    ensures SliceFits(|file|, body, 2) && ReadInt16LE(file, body) == PcmTag && !SliceFits(|file|, body, FmtBodySize) ==>
              r == Failure(OutOfRange)
    ensures && SliceFits(|file|, body, FmtBodySize) && ReadInt16LE(file, body) == PcmTag
            && SampleFormatOf(ReadInt16LE(file, body + 2), ReadInt16LE(file, body + 14)).Failure? ==>
              r == Failure(SampleFormatOf(ReadInt16LE(file, body + 2), ReadInt16LE(file, body + 14)).error)
    ensures r.Success? <==>
              && SliceFits(|file|, body, FmtBodySize)
              && ReadInt16LE(file, body) == PcmTag
              && SampleFormatOf(ReadInt16LE(file, body + 2), ReadInt16LE(file, body + 14)).Success?
    ensures r.Success? ==> r.value.format.Some? && Consistent(r.value)
    ensures r.Success? ==>
              && r.value.channels == ReadInt16LE(file, body + 2)
              && r.value.sampleRate == ReadInt32LE(file, body + 4)
              && r.value.byteRate == ReadInt32LE(file, body + 8)
              && r.value.blockAlign == ReadInt16LE(file, body + 12)
              && r.value.bits == ReadInt16LE(file, body + 14)
  {
    if !SliceFits(|file|, body, 2) then Failure(OutOfRange)
    else
      var tag := ReadInt16LE(file, body);
      if tag != PcmTag then Failure(UnsupportedAudioFormat(tag))
      // the remaining reads all throw the same way when the body is cut short
      else if !SliceFits(|file|, body, FmtBodySize) then Failure(OutOfRange)
      else
        var channels := ReadInt16LE(file, body + 2);
        var sampleRate := ReadInt32LE(file, body + 4);
        var byteRate := ReadInt32LE(file, body + 8);
        var blockAlign := ReadInt16LE(file, body + 12);
        var bits := ReadInt16LE(file, body + 14);
        var format :- SampleFormatOf(channels, bits);
        Success(FormatFields(channels, sampleRate, byteRate, blockAlign, bits, Some(format)))
  }

  /** The descriptor fits the on-disk field widths. */
  predicate Encodable(d: Descriptor) {
    IsInt32(d.sampleRate) && IsInt32(d.byteRate) && IsInt16(d.blockAlign)
  }

  /** The 16-byte PCM `fmt ` body that describes `d`: the writer side of `DecodeFmt`. */
  function EncodeFmt(d: Descriptor): (body: seq<byte>)
    requires Encodable(d)
    ensures |body| == FmtBodySize
    ensures DecodeFmt(body, 0) == Success(d)
  {
    var tag := EncodeInt16LE(PcmTag);
    var channels := EncodeInt16LE(d.channels);
    var rate := EncodeInt32LE(d.sampleRate);
    var byteRate := EncodeInt32LE(d.byteRate);
    var blockAlign := EncodeInt16LE(d.blockAlign);
    var bits := EncodeInt16LE(d.bits);
    var body := tag + channels + rate + byteRate + blockAlign + bits;
    assert body[0..2] == tag && body[2..4] == channels && body[4..8] == rate;
    assert body[8..12] == byteRate && body[12..14] == blockAlign && body[14..16] == bits;
    ReadInt16Window(body, 0, tag, 0);
    ReadInt16Window(body, 2, channels, 0);
    ReadInt32Window(body, 4, rate, 0);
    ReadInt32Window(body, 8, byteRate, 0);
    ReadInt16Window(body, 12, blockAlign, 0);
    ReadInt16Window(body, 14, bits, 0);
    SampleFormatRoundTrip(d.format.value);
    body
  }

  /** `DecodeFmt` sees only the 16 bytes of the body, wherever they sit in the file. */
  lemma {:induction false} DecodeFmtWindow(file: seq<byte>, body: int, w: seq<byte>)
    requires |w| == FmtBodySize && SliceFits(|file|, body, FmtBodySize) && file[body..body + FmtBodySize] == w
    ensures DecodeFmt(file, body) == DecodeFmt(w, 0)
  {
    ReadInt16Window(file, body, w, 0);
    ReadInt16Window(file, body, w, 2);
    ReadInt32Window(file, body, w, 4);
    ReadInt32Window(file, body, w, 8);
    ReadInt16Window(file, body, w, 12);
    ReadInt16Window(file, body, w, 14);
  }
}

=== FILE: wrappers.dfy ===
/** Failure-compatible result types used by the parser model. */
module Wrappers {

  /** An optional value; `None` plays the role of the source's "not yet decoded" sentinel. */
  datatype Option<+T> = None | Some(value: T)

  /** Either a value or the error that aborted the computation (a thrown exception in the source). */
  datatype Result<+T, +E> = Success(value: T) | Failure(error: E) {

    predicate IsFailure() {
      Failure?
    }

    function PropagateFailure<U>(): Result<U, E>
      requires Failure?
    {
      Failure(error)
    }

    function Extract(): T
      requires Success?
    {
      value
    }
  }
}
